=== FILE: README.md ===
# Deck planner of `create_powerpoint`

This project models the content-planning core of `create_powerpoint` in
`ppt_agent/skills/scripts/create_presentation.py`. That function turns a topic,
a slide count and optional research text into a PowerPoint deck. The model
leaves out the python-pptx calls. It computes what the function would put on
the slides:

- an ordered list of slide specifications, each a layout, a title and a body of
  `(text, level)` paragraphs;
- the file path;
- the reported slide total;
- the dictionary handed back to the caller.

Modules:

- `Wrappers`: `Option`, `Result`, `Min`, `Max`.
- `Text`: the Python string operations the function relies on. These are
  `strip`, `split('\n')`, `replace(p, '')`, `startswith`/`endswith`, `lower`
  and `str(n)`.
- `Seqs`: a filtering map with the positions its outputs come from, Python's
  clamping slice `s[a:b]`, and concatenation.
- `Slides`: the slide specification datatypes.
- `Research`: the "Key Research Findings" slide body and the extraction of
  research bullets.
- `Distribution`: how the bullets are spread over the content slides.
- `Deck`: validation, the title/findings/content slides in order, the
  filename, the result, and the returned dictionary.
- `Tool`: the agent tool wrapper in `ppt_agent/utils/tools.py`, which returns
  `result["message"]`.

The date and the timestamp are parameters. So is the message of an exception
raised while writing the file. Everything else is a pure function of the
inputs.

## Model

| member | source | states |
|---|---|---|
| Text.StripPadding | ppt_agent/skills/scripts/create_presentation.py:110 | `strip` removes only whitespace runs at both ends, keeps the middle verbatim, and yields "" exactly when the text is all whitespace |
| Text.SplitSpec | ppt_agent/skills/scripts/create_presentation.py:107 | no piece of `split('\n')` contains a newline, and joining the pieces with newlines gives the text back |
| Text.SplitJoin | ppt_agent/skills/scripts/create_presentation.py:107 | splitting undoes joining when no piece holds the separator |
| Text.RemoveAllOnlyDeletes | ppt_agent/skills/scripts/create_presentation.py:96 | `replace(p, '')` only deletes: what it returns is a subsequence of the line, its characters kept in their order, and so also a sub-multiset of the line's characters |
| Text.RemoveAllAbsent | ppt_agent/skills/scripts/create_presentation.py:96 | `replace(p, '')` leaves a text without `p` unchanged |
| Text.RemoveDoubledLeavesNone | ppt_agent/skills/scripts/create_presentation.py:96 | right after the first replacement, `replace('**', '')`, no `**` is left in the line; this covers that replacement only, since the later `replace('- ', '')` can join two stars again (`*- *x` becomes `**x`) |
| Text.NatToStringRoundTrip | ppt_agent/skills/scripts/create_presentation.py:142 | the decimal text of the slide number reads back as that number |
| Text.NatToStringInjective | ppt_agent/skills/scripts/create_presentation.py:142 | different slide numbers format differently |
| Seqs.OriginsSpec | ppt_agent/skills/scripts/create_presentation.py:88 | a filtering comprehension keeps the accepted elements in their original order, each with its image, and leaves none of them out |
| Seqs.FilterMapSnoc | ppt_agent/skills/scripts/create_presentation.py:109-133 | the append-in-a-loop form and the comprehension form of a filter agree one element at a time |
| Seqs.PySlice | ppt_agent/skills/scripts/create_presentation.py:155 | Python's `s[a:b]` clamps both bounds to the length and is empty when the start is at or past the end |
| Research.FindingsBody | ppt_agent/skills/scripts/create_presentation.py:88-100 | the findings slide holds between 1 and 8 paragraphs, and the first is at level 0 |
| Research.FindingsFallbackWhenEmpty | ppt_agent/skills/scripts/create_presentation.py:99-100 | when every line is blank or a `#` header, the body is the single sentence "Research findings incorporated throughout presentation" |
| Research.FindingsLead | ppt_agent/skills/scripts/create_presentation.py:88-91 | the first paragraph is the first non-blank, non-`#` line, stripped and otherwise verbatim |
| Research.FindingsFromWindow | ppt_agent/skills/scripts/create_presentation.py:92-98 | the paragraphs after the first correspond one to one, in line order, to research lines 2 to 8 that do not open with `**`, and none of those lines is left out; each paragraph's text is `line.replace('**','').replace('- ','').replace('* ','')`, in which `**` can appear again (`*- *x` gives `**x`), and its level is 0 exactly when the line starts with `-` or `*` |
| Research.StripMarkersLongest | ppt_agent/skills/scripts/create_presentation.py:121-124 | the marker loop cuts off a prefix and keeps the rest of the line; the prefix is at most one each of `- `, `* ` and the mojibake bullet, in that order, and it is the longest such prefix the line starts with, so a leading marker is always removed |
| Research.StripMarkersIsLoop | ppt_agent/skills/scripts/create_presentation.py:121-124 | the straight-line form of the marker loop equals the loop over the marker list |
| Research.ResearchBulletsShape | ppt_agent/skills/scripts/create_presentation.py:103-133 | every bullet is longer than 15 characters, has no `:` in its first 30, is not a URL, does not start with a section label in any letter case, and has no whitespace at either end |
| Research.BulletsFollowLines | ppt_agent/skills/scripts/create_presentation.py:107-133 | bullets come from accepted lines in line order; none comes from a blank, `#`, `http` or `**` line; every accepted line contributes one |
| Research.ExtractResearchBullets | ppt_agent/skills/scripts/create_presentation.py:103-133 | the loop as written computes exactly the research bullets |
| Research.CleanLine | ppt_agent/skills/scripts/create_presentation.py:110-133 | one pass of the loop body (skips, marker loop, trim, filter) decides the same bullet as the line-level definition |
| Distribution.SlideBullets | ppt_agent/skills/scripts/create_presentation.py:151-155 | slide `i` gets at most `max(3, n // num_slides)` bullets, taken in order from position `(i-1) * budget`; it gets none exactly when that position is at or past the end, and a full window when enough bullets remain |
| Distribution.WindowsCover | ppt_agent/skills/scripts/create_presentation.py:151-155 | the windows of slides 1..m, read in order, are exactly the first `min(n, m * budget)` bullets, with no bullet repeated, reordered or skipped |
| Distribution.DroppedBullets | ppt_agent/skills/scripts/create_presentation.py:151 | the number of bullets no slide shows is `n % num_slides` when `n // num_slides` is at least 3, and 0 otherwise; it is always less than the slide count |
| Distribution.DistributionKeepsPrefix | ppt_agent/skills/scripts/create_presentation.py:151-155 | what the deck shows is a prefix of the bullets, shorter by exactly the dropped count |
| Distribution.WindowsDisjoint | ppt_agent/skills/scripts/create_presentation.py:152-155 | every position an earlier slide draws from comes before every position a later slide draws from |
| Distribution.WindowsContiguous | ppt_agent/skills/scripts/create_presentation.py:152-155 | a slide followed by a non-empty slide is full, and the next window starts where it ends |
| Deck.ValidateSpec | ppt_agent/skills/scripts/create_presentation.py:38-50 | inputs pass exactly when the count is within 1..20 and the topic has a non-whitespace character; a bad count is reported as "num_slides must be between 1 and 20" even when the topic is also bad; a blank topic gives "topic cannot be empty" |
| Deck.CreatePowerpoint | ppt_agent/skills/scripts/create_presentation.py:36-202 | rejected inputs give their validation error and no slides; a write exception gives a write failure with its text; otherwise the deck has title + findings + `num_slides` slides, and the reported total leaves out the findings slide |
| Deck.PlanDeck | ppt_agent/skills/scripts/create_presentation.py:61-175 | the deck has one slide for the title if requested, one for findings iff research text is given, and exactly `num_slides` content slides |
| Deck.DeckOrder | ppt_agent/skills/scripts/create_presentation.py:61-137 | the title slide comes first when requested, the findings slide follows iff research text is given, and the content slides fill the rest in order |
| Deck.SubtitleMarksResearch | ppt_agent/skills/scripts/create_presentation.py:68-71 | the subtitle starts with "Generated on {date}", and, for a date without a vertical bar (as `%B %d, %Y` always gives), it ends in the "Research-Enhanced Presentation" marker exactly when research text is given, and its length is the prefix and date plus the marker's length only in that case, so nothing else is added |
| Deck.ContentTitlesDistinct | ppt_agent/skills/scripts/create_presentation.py:142 | no two content slides share a title |
| Deck.DeckPlaceholders | ppt_agent/skills/scripts/create_presentation.py:136-175 | in the planned deck, when the research text yields no bullet or there is none, content slide `i` is titled "{topic} - Point {i}" and reads "Key concept {i} related to {topic}" at level 0, then "Supporting detail {j} for concept {i}" for j = 1..3 at level 1 |
| Deck.BulletMode | ppt_agent/skills/scripts/create_presentation.py:148-167 | with research bullets, slide `i` shows exactly its window of bullets in order (between one and the per-slide budget of them, the `k`-th being bullet `start + k`), all at level 0, or the single line "Additional insights related to {topic}" when the window is empty |
| Deck.DeckBullets | ppt_agent/skills/scripts/create_presentation.py:136-167 | in the planned deck, when the research text yields bullets, content slide `i` is titled "{topic} - Point {i}" and its paragraphs are the bullets of its window, in order and at level 0, or the single fallback line when the window starts past the last bullet |
| Deck.TopLevel | ppt_agent/skills/scripts/create_presentation.py:157-164 | the paragraphs built from a window give the window back as their texts, none indented |
| Deck.SafeTopic | ppt_agent/skills/scripts/create_presentation.py:178-179 | the sanitised topic has `min(len, 50)` characters; each is the topic's character when that is alphanumeric or non-space whitespace, otherwise `_`; no space is left |
| Deck.FileNameShape | ppt_agent/skills/scripts/create_presentation.py:178-181 | for a valid topic the file name is the non-empty sanitised topic, `_`, the timestamp and `.pptx`: its length is exactly the sum of those parts and the timestamp sits between the `_` and the extension; it never starts with `/` |
| Deck.JoinPathInside | ppt_agent/skills/scripts/create_presentation.py:182 | joining keeps the output directory as a prefix, adding a separator only when needed, and ends in the file name |
| Deck.CreatedPath | ppt_agent/skills/scripts/create_presentation.py:178-187 | a valid call with no write error succeeds, its path ends in the generated file name, and its total is `num_slides` plus one for a title slide |
| Deck.ToResponse | ppt_agent/skills/scripts/create_presentation.py:189-202 | the dictionary has `success` and a file path iff the deck was written, `error` iff it was not, and lacks `message` exactly for a validation failure; on success `filepath` and `total_slides` hold the reported path and total, and on failure `error` holds the validation message or the exception text and there is no `total_slides` |
| Deck.CreatedResponse | ppt_agent/skills/scripts/create_presentation.py:181-194 | the dictionary of a valid call whose file is written holds `success`, no `error`, the directory joined with `{safe_topic}_{timestamp}.pptx` as `filepath`, and `num_slides` plus one for a title slide as `total_slides` |
| Deck.SuccessMessage | ppt_agent/skills/scripts/create_presentation.py:189-194 | the success message names the file path and the total, and the total reads back from it |
| Tool.RejectedInputRaises | ppt_agent/utils/tools.py:69-77 | for every rejected input the dictionary has no `message`, so the tool raises instead of replying |
| Tool.ReplyAlwaysAnswers | ppt_agent/utils/tools.py:54-56 | the corrected tool always replies: the success message after a written deck, otherwise "Error creating PowerPoint presentation: " plus the validation error or the exception text |

## Left out

- Rendering with python-pptx is not modelled. This covers `Presentation`, slide sizes, layouts, placeholders and `prs.save`. The deck is a list of `SlideSpec` values instead.
- How python-pptx treats control characters is not modelled. A vertical tab inside a paragraph's text, for example, becomes a line break there.
- `os.makedirs` and `prs.save` are file-system I/O. An exception from either is the `writeError` parameter.
- `writeError` is a free parameter and is not tied to `outputDir`. In Python `os.makedirs("")` always raises, so an empty output directory always ends in a write failure; the model leaves that to the caller's choice of `writeError`, and `Deck.JoinPath`'s empty-directory case only completes the POSIX join.
- The catch-all handler of lines 196-202 is modelled only for such write exceptions. An exception raised by python-pptx for some other reason is not modelled.
- `datetime.now()` is the clock. The formatted date (`%B %d, %Y`) and timestamp (`%Y%m%d_%H%M%S`) are parameters, and their formats are not checked.
- `os.path.join` is modelled as the two-argument POSIX join. Windows separators and drive letters are not modelled.
- Python's `isspace`, `isalnum`, `lower` and `strip` are Unicode-aware. The model uses ASCII: whitespace is space, `\t`-`\r` and `\x1c`-`\x1f`; letters and digits are ASCII; only A-Z are lowered.
- The defaults of lines 16-19 (`num_slides=5`, `include_title_slide=True`, `output_dir="./output"`, `research_data=None`) are not modelled: every argument of `Deck.CreatePowerpoint` is explicit. The tool wrapper passes all of them anyway (`ppt_agent/utils/tools.py` lines 69-75).
- Arguments of the wrong Python type are not modelled, for example a `None` topic or a string slide count. In Python these end in the catch-all handler or in `not topic`. The model's parameters are typed.
- Deck.SubtitleMarksResearch: the marker equivalence is stated only for dates without `|`. A date holding `| Research-Enhanced Presentation` would make the subtitle end in the marker without research text; the `%B %d, %Y` format never produces a `|`.
- Tool.ReplyAsWritten: the `KeyError` is modelled as a missing reply (`None`). The exception itself propagating to the agent is not modelled.
- `list_presentations.py`, `loader.py`, the agents, the research sub-agent and the test and support scripts are not modelled. They are I/O, network or LLM wiring.
- The docstring example in `ppt_agent/utils/tools.py` (lines 61 and 66) shows messages that the code does not produce, for example "created successfully (research-enhanced): …". The model follows the code: "PowerPoint presentation created successfully: {filepath} (Total slides: {total})".

## Findings

| source | as written | input that shows it | evidently intended | confidence | as-written member | corrected member |
|---|---|---|---|---|---|---|
| ppt_agent/utils/tools.py:77 | the tool returns `result["message"]`, but the dictionaries for rejected inputs (create_presentation.py lines 39-50) have no `message` key | `create_presentation(topic="AI Trends", num_slides=0)`: the result is `{"success": False, "error": "num_slides must be between 1 and 20", "filepath": None}`, and reading `message` raises `KeyError` | an error message naming the validation error, as the docstring at lines 54-56 promises | not executed | Tool.RejectedInputRaises | Tool.ReplyAlwaysAnswers |

=== FILE: Deck.dfy ===
/** `create_powerpoint` (create_presentation.py lines 14-202) as a pure
    function: it validates its inputs, lays out the slides in order (title,
    research findings, content), derives the file name from the topic, and
    reports the path and the slide total. The clock readings and the outcome
    of writing the file are parameters. */
module Deck {
  import opened Wrappers
  import opened Text
  import opened Seqs
  import opened Slides
  import opened Research
  import opened Distribution

  const MinSlides: nat := 1
  const MaxSlides: nat := 20
  const SlideCountError := "num_slides must be between 1 and 20"
  const EmptyTopicError := "topic cannot be empty"
  const GeneratedOn := "Generated on "
  const ResearchMarker := " | Research-Enhanced Presentation"
  /** The sanitised topic is cut to this many characters. */
  const MaxTopicChars: nat := 50

  /** Why no deck was written: the input checks failed, or an exception was
      raised while creating the directory or saving the file. */
  datatype CreateError = InvalidInput(error: string) | WriteFailure(error: string)

  /** What a successful call reports. */
  datatype Created = Created(slides: seq<SlideSpec>, filepath: string, totalSlides: nat)

  // ---------------------------------------------------------------------------
  // Validation

  /** The checks of lines 38-50, in the source's order: the slide count first,
      then the topic. */
  function Validate(topic: string, numSlides: int): Option<string>
  {
    if numSlides < MinSlides || numSlides > MaxSlides then Some(SlideCountError)
    else if topic == "" || |Strip(topic)| == 0 then Some(EmptyTopicError)
    else None
  }

  /** Inputs pass exactly when the count is in `1..20` and the topic holds a
      character that is not whitespace; a bad count is reported even when the
      topic is bad too. */
  lemma ValidateSpec(topic: string, numSlides: int)
    ensures Validate(topic, numSlides).None?
            <==> MinSlides <= numSlides <= MaxSlides && !AllSpace(topic)
    ensures !(MinSlides <= numSlides <= MaxSlides) ==> Validate(topic, numSlides) == Some(SlideCountError)
    ensures MinSlides <= numSlides <= MaxSlides && AllSpace(topic)
            ==> Validate(topic, numSlides) == Some(EmptyTopicError)
  {
    StripPadding(topic);
  }

  // ---------------------------------------------------------------------------
  // Slides

  /** The subtitle of lines 68-71, with the date passed in already formatted. */
  function Subtitle(date: string, research: Option<string>): string
  {
    GeneratedOn + date + (if Provided(research) then ResearchMarker else "")
  }

  function TitleSlide(topic: string, date: string, research: Option<string>): SlideSpec
  {
    SlideSpec(TitleLayout, topic, [Paragraph(Subtitle(date, research), 0)])
  }

  function FindingsSlide(data: string): SlideSpec
  {
    SlideSpec(BulletLayout, FindingsTitle, FindingsBody(data))
  }

  /** `f"{topic} - Point {i}"`. */
  function ContentTitle(topic: string, i: nat): string
  {
    topic + " - Point " + NatToString(i)
  }

  /** The generic body of lines 170-175. */
  function PlaceholderBody(topic: string, i: nat): seq<Paragraph>
  {
    [Paragraph(KeyConcept(topic, i), 0), Paragraph(Detail(1, i), 1), Paragraph(Detail(2, i), 1), Paragraph(Detail(3, i), 1)]
  }

  function KeyConcept(topic: string, i: nat): string
  {
    "Key concept " + NatToString(i) + " related to " + topic
  }

  function Detail(j: nat, i: nat): string
  {
    "Supporting detail " + NatToString(j) + " for concept " + NatToString(i)
  }

  function FallbackLine(topic: string): string
  {
    "Additional insights related to " + topic
  }

  /** The body of content slide `i` (lines 148-175). */
  function ContentBody(topic: string, research: Option<string>, bullets: seq<string>,
                       numSlides: nat, i: nat): seq<Paragraph>
    requires numSlides >= 1 && i >= 1
  {
    if Provided(research) && |bullets| > 0 then
      var window := SlideBullets(bullets, numSlides, i);
      if |window| > 0 then TopLevel(window)
      else [Paragraph(FallbackLine(topic), 0)]
    else
      PlaceholderBody(topic, i)
  }

  function ContentSlide(topic: string, research: Option<string>, bullets: seq<string>,
                        numSlides: nat, i: nat): SlideSpec
    requires numSlides >= 1 && i >= 1
  {
    SlideSpec(BulletLayout, ContentTitle(topic, i), ContentBody(topic, research, bullets, numSlides, i))
  }

  /** The loop of lines 136-175: content slides `1..numSlides`, drawing on
      the research bullets extracted beforehand. */
  function ContentSlides(topic: string, research: Option<string>, bullets: seq<string>,
                         numSlides: nat): (slides: seq<SlideSpec>)
    requires numSlides >= 1
    ensures |slides| == numSlides
  {
    seq(numSlides, k requires 0 <= k < numSlides => ContentSlide(topic, research, bullets, numSlides, k + 1))
  }

  /** The slides in the order the source adds them. */
  function PlanDeck(topic: string, numSlides: nat, includeTitle: bool,
                    research: Option<string>, date: string): (deck: seq<SlideSpec>)
    requires numSlides >= 1
    ensures |deck| == (if includeTitle then 1 else 0) + (if Provided(research) then 1 else 0) + numSlides
  {
    (if includeTitle then [TitleSlide(topic, date, research)] else [])
    + (if Provided(research) then [FindingsSlide(research.value)] else [])
    + ContentSlides(topic, research, ResearchBullets(research), numSlides)
  }

  /** Where each kind of slide sits: the title slide first when asked for, the
      findings slide next exactly when research text is given, and the content
      slides after them, filling the rest of the deck. */
  lemma DeckOrder(topic: string, numSlides: nat, includeTitle: bool,
                  research: Option<string>, date: string)
    requires numSlides >= 1
    ensures includeTitle ==> PlanDeck(topic, numSlides, includeTitle, research, date)[0]
                             == TitleSlide(topic, date, research)
    ensures Provided(research) ==> PlanDeck(topic, numSlides, includeTitle, research, date)[if includeTitle then 1 else 0]
                                   == FindingsSlide(research.value)
    ensures PlanDeck(topic, numSlides, includeTitle, research, date)
              [(if includeTitle then 1 else 0) + (if Provided(research) then 1 else 0)..]
            == ContentSlides(topic, research, ResearchBullets(research), numSlides)
  {
    var head: seq<SlideSpec> := if includeTitle then [TitleSlide(topic, date, research)] else [];
    var findings: seq<SlideSpec> := if Provided(research) then [FindingsSlide(research.value)] else [];
    var content := ContentSlides(topic, research, ResearchBullets(research), numSlides);
    var deck := PlanDeck(topic, numSlides, includeTitle, research, date);
    assert deck == head + findings + content;
    ThreeParts(head, findings, content);
    if includeTitle {
      assert deck[0] == TitleSlide(topic, date, research);
    }
    if Provided(research) {
      assert deck[|head|] == FindingsSlide(research.value);
    }
    var t := (if includeTitle then 1 else 0) + (if Provided(research) then 1 else 0);
    assert |head| + |findings| == t;
    assert deck[t..] == content;
  }

  /** The content slides, on their own: the third clause of `DeckOrder`
      restated alone, so that callers about one content slide do not carry
      the title and findings clauses into their proof context. */
  lemma DeckContent(topic: string, numSlides: nat, includeTitle: bool,
                    research: Option<string>, date: string)
    requires numSlides >= 1
    ensures PlanDeck(topic, numSlides, includeTitle, research, date)
              [(if includeTitle then 1 else 0) + (if Provided(research) then 1 else 0)..]
            == ContentSlides(topic, research, ResearchBullets(research), numSlides)
  {
    DeckOrder(topic, numSlides, includeTitle, research, date);
  }

  lemma ThreeParts<T>(a: seq<T>, b: seq<T>, c: seq<T>)
    ensures |a| > 0 ==> (a + b + c)[0] == a[0]
    ensures |b| > 0 ==> (a + b + c)[|a|] == b[0]
    ensures (a + b + c)[|a| + |b|..] == c
  {
  }

  /** The subtitle gives the date back after "Generated on ", and, for a
      date formatted without `|` as `%B %d, %Y` always is, it ends in the
      research marker exactly when research text is given; nothing else is
      added, so the marker follows the date directly. */
  lemma SubtitleMarksResearch(date: string, research: Option<string>)
    requires '|' !in date
    ensures var s := Subtitle(date, research);
            && StartsWith(s, GeneratedOn + date)
            && (EndsWith(s, ResearchMarker) <==> Provided(research))
            && |s| == |GeneratedOn| + |date| + (if Provided(research) then |ResearchMarker| else 0)
  {
    var s := Subtitle(date, research);
    var g := GeneratedOn + date;
    if Provided(research) {
      assert s == g + ResearchMarker;
      assert s[..|g|] == g;
      assert s[|s| - |ResearchMarker|..] == ResearchMarker;
    } else {
      assert s == g;
      assert s[..|g|] == g;
      assert '|' !in GeneratedOn;
      assert '|' !in g;
      NoBarEnd(g, ResearchMarker);
    }
  }

  /** A text without `|` cannot end in a marker whose second character is `|`. */
  lemma NoBarEnd(s: string, m: string)
    requires '|' !in s && |m| > 1 && m[1] == '|'
    ensures !EndsWith(s, m)
  {
    if |m| <= |s| {
      var k := |s| - |m| + 1;
      assert s[|s| - |m|..][1] == s[k];
    }
  }

  /** No two content slides share a title. */
  lemma ContentTitlesDistinct(topic: string, i: nat, j: nat)
    requires i != j
    ensures ContentTitle(topic, i) != ContentTitle(topic, j)
  {
    NatToStringInjective(i, j);
    var p := topic + " - Point ";
    assert (p + NatToString(i))[|p|..] == NatToString(i);
    assert (p + NatToString(j))[|p|..] == NatToString(j);
  }

  /** Without research bullets every content slide carries the generic body:
      its key concept at level 0 and three supporting details at level 1. */
  lemma PlaceholderMode(topic: string, research: Option<string>, bullets: seq<string>, numSlides: nat, i: nat)
    requires numSlides >= 1 && 1 <= i <= numSlides
    requires !Provided(research) || bullets == []
    ensures ContentSlides(topic, research, bullets, numSlides)[i - 1].layout == BulletLayout
    ensures ContentSlides(topic, research, bullets, numSlides)[i - 1].title == topic + " - Point " + NatToString(i)
    ensures var body := ContentSlides(topic, research, bullets, numSlides)[i - 1].body;
            && |body| == 4
            && body[0] == Paragraph("Key concept " + NatToString(i) + " related to " + topic, 0)
            && forall j :: 1 <= j <= 3 ==>
                 body[j] == Paragraph("Supporting detail " + NatToString(j) + " for concept " + NatToString(i), 1)
  {
    var slides := ContentSlides(topic, research, bullets, numSlides);
    assert slides[i - 1] == ContentSlide(topic, research, bullets, numSlides, i);
    assert slides[i - 1].body == PlaceholderBody(topic, i);
  }

  /** With research bullets, content slide `i` shows its window of bullets,
      all at level 0, or the single fallback line when its window is empty. */
  lemma BulletMode(topic: string, research: Option<string>, bullets: seq<string>, numSlides: nat, i: nat)
    requires numSlides >= 1 && 1 <= i <= numSlides
    requires Provided(research) && bullets != []
    ensures BulletSlide(topic, bullets, numSlides, i, ContentSlides(topic, research, bullets, numSlides)[i - 1])
  {
    var slides := ContentSlides(topic, research, bullets, numSlides);
    assert slides[i - 1] == ContentSlide(topic, research, bullets, numSlides, i);
  }

  /** In the deck: when the research text yields no bullet (or there is none),
      content slide `i` is the bulleted slide "{topic} - Point {i}" with its
      key concept at level 0 and three supporting details at level 1. */
  lemma DeckPlaceholders(topic: string, numSlides: nat, includeTitle: bool,
                         research: Option<string>, date: string, i: nat)
    requires numSlides >= 1 && 1 <= i <= numSlides
    requires |ResearchBullets(research)| == 0
    ensures var deck := PlanDeck(topic, numSlides, includeTitle, research, date);
            var slide := deck[(if includeTitle then 1 else 0) + (if Provided(research) then 1 else 0)..][i - 1];
            && slide.layout == BulletLayout
            && slide.title == topic + " - Point " + NatToString(i)
            && |slide.body| == 4
            && slide.body[0] == Paragraph("Key concept " + NatToString(i) + " related to " + topic, 0)
            && forall j :: 1 <= j <= 3 ==>
                 slide.body[j] == Paragraph("Supporting detail " + NatToString(j) + " for concept " + NatToString(i), 1)
  {
    DeckContent(topic, numSlides, includeTitle, research, date);
    PlaceholderMode(topic, research, ResearchBullets(research), numSlides, i);
  }

  /** In the deck: when the research text yields bullets, content slide `i`
      is the bulleted slide "{topic} - Point {i}" whose paragraphs are the
      bullets of its window (`SlideBullets`), in order and all at level 0, or
      the single fallback line when the window starts past the last bullet. */
  lemma DeckBullets(topic: string, numSlides: nat, includeTitle: bool,
                    research: Option<string>, date: string, i: nat)
    requires numSlides >= 1 && 1 <= i <= numSlides
    requires Provided(research) && |ResearchBullets(research)| > 0
    ensures BulletSlide(topic, ResearchBullets(research), numSlides, i,
                        PlanDeck(topic, numSlides, includeTitle, research, date)
                          [(if includeTitle then 1 else 0) + (if Provided(research) then 1 else 0)..][i - 1])
  {
    DeckContent(topic, numSlides, includeTitle, research, date);
    BulletMode(topic, research, ResearchBullets(research), numSlides, i);
  }

  /** Content slide `i` as shown in bullet mode: titled "{topic} - Point {i}",
      and holding either the fallback line, when its window starts past the
      last bullet, or the window's bullets (at least one and at most the
      per-slide budget), in order, each at level 0 and taken from position
      `start + k` of the bullets. */
  predicate BulletSlide(topic: string, bullets: seq<string>, numSlides: nat, i: nat, slide: SlideSpec)
    requires numSlides >= 1 && i >= 1
  {
    var start := SlideStart(|bullets|, numSlides, i);
    && slide.layout == BulletLayout
    && slide.title == topic + " - Point " + NatToString(i)
    && (start >= |bullets| ==> slide.body == [Paragraph("Additional insights related to " + topic, 0)])
    && (start < |bullets| ==>
          && 1 <= |slide.body| <= Budget(|bullets|, numSlides)
          && Texts(slide.body) == SlideBullets(bullets, numSlides, i)
          && forall k :: 0 <= k < |slide.body| ==>
               start + k < |bullets| && slide.body[k] == Paragraph(bullets[start + k], 0))
  }

  /** The bullets of a window as top-level paragraphs: their texts give the
      window back, and none is indented. */
  function TopLevel(texts: seq<string>): (body: seq<Paragraph>)
    ensures Texts(body) == texts
    ensures forall k :: 0 <= k < |body| ==> body[k].level == 0
  {
    seq(|texts|, k requires 0 <= k < |texts| => Paragraph(texts[k], 0))
  }

  function Texts(body: seq<Paragraph>): (texts: seq<string>)
    ensures |texts| == |body| && forall k :: 0 <= k < |body| ==> texts[k] == body[k].text
  {
    seq(|body|, k requires 0 <= k < |body| => body[k].text)
  }

  // ---------------------------------------------------------------------------
  // File name and result

  /** Line 178 for one character. */
  function SafeChar(c: char): char
  {
    if IsAlnum(c) || IsSpace(c) then c else '_'
  }

  /** `s.replace(a, b)` for single characters. */
  function ReplaceChar(s: string, a: char, b: char): string
  {
    seq(|s|, k requires 0 <= k < |s| => if s[k] == a then b else s[k])
  }

  /** Lines 178-179: the topic with each character that is neither alphanumeric
      nor whitespace turned into `_`, then each space into `_`, cut to 50
      characters. Other whitespace, such as a tab, is kept. */
  function SafeTopic(topic: string): (r: string)
    ensures |r| == Min(|topic|, MaxTopicChars)
    ensures forall k :: 0 <= k < |r| ==>
              if IsAlnum(topic[k]) || (IsSpace(topic[k]) && topic[k] != ' ') then r[k] == topic[k]
              else r[k] == '_'
    ensures ' ' !in r
  {
    var mapped := seq(|topic|, k requires 0 <= k < |topic| => SafeChar(topic[k]));
    Take(ReplaceChar(mapped, ' ', '_'), MaxTopicChars)
  }

  /** `f"{safe_topic}_{timestamp}.pptx"`, with the timestamp passed in already formatted. */
  function FileName(topic: string, timestamp: string): string
  {
    SafeTopic(topic) + "_" + timestamp + ".pptx"
  }

  /** `os.path.join(directory, name)` on POSIX for two components. */
  function JoinPath(directory: string, name: string): string
  {
    if StartsWith(name, "/") then name
    else if directory == "" || EndsWith(directory, "/") then directory + name
    else directory + "/" + name
  }

  /** Line 187: the title slide counts, the findings slide does not. */
  function TotalSlides(numSlides: nat, includeTitle: bool): nat
  {
    numSlides + (if includeTitle then 1 else 0)
  }

  /** `create_powerpoint` with the clock readings passed in (`date` formatted
      as `%B %d, %Y`, `timestamp` as `%Y%m%d_%H%M%S`) and `writeError` the
      message of the exception, if any, raised while creating the output
      directory or saving the file. */
  function CreatePowerpoint(topic: string, numSlides: int, includeTitle: bool, outputDir: string,
                            research: Option<string>, date: string, timestamp: string,
                            writeError: Option<string>): (r: Result<Created, CreateError>)
    ensures Validate(topic, numSlides).Some? ==> r == Failure(InvalidInput(Validate(topic, numSlides).value))
    ensures r.Failure? && r.error.InvalidInput? <==> Validate(topic, numSlides).Some?
    ensures Validate(topic, numSlides).None? && writeError.Some?
            ==> r == Failure(WriteFailure(writeError.value))
    ensures r.Success? <==> Validate(topic, numSlides).None? && writeError.None?
    ensures r.Success? ==>
              && |r.value.slides| == (if includeTitle then 1 else 0) + (if Provided(research) then 1 else 0) + numSlides
              && r.value.totalSlides == |r.value.slides| - (if Provided(research) then 1 else 0)
  {
    match Validate(topic, numSlides)
    case Some(e) => Failure(InvalidInput(e))
    case None =>
      var deck := PlanDeck(topic, numSlides, includeTitle, research, date);
      var path := JoinPath(outputDir, FileName(topic, timestamp));
      if writeError.Some? then Failure(WriteFailure(writeError.value))
      else Success(Created(deck, path, TotalSlides(numSlides, includeTitle)))
  }

  /** A name that does not start with `/` is placed inside the directory:
      the joined path is the directory, a separator unless the directory is
      empty or already ends in one, and the name. */
  lemma JoinPathInside(directory: string, name: string)
    requires !StartsWith(name, "/")
    ensures var p := JoinPath(directory, name);
            && EndsWith(p, name)
            && p[..|p| - |name|] == (if directory == "" || EndsWith(directory, "/") then directory else directory + "/")
  {
    var p := JoinPath(directory, name);
    if directory == "" || EndsWith(directory, "/") {
      assert p == directory + name;
    } else {
      assert p == (directory + "/") + name;
    }
  }

  /** For a topic that passes validation, the file name starts with the
      non-empty sanitised topic (so never with `/`), then `_` and the
      timestamp, and ends in `.pptx`. */
  lemma FileNameShape(topic: string, timestamp: string)
    requires !AllSpace(topic)
    ensures var name := FileName(topic, timestamp);
            && |SafeTopic(topic)| >= 1
            && StartsWith(name, SafeTopic(topic))
            && !StartsWith(name, "/")
            && name[|SafeTopic(topic)|] == '_'
            && |name| == |SafeTopic(topic)| + 1 + |timestamp| + 5
            && name[|SafeTopic(topic)| + 1..|name| - 5] == timestamp
            && EndsWith(name, ".pptx")
  {
    var safe := SafeTopic(topic);
    var name := FileName(topic, timestamp);
    assert |topic| > 0;
    assert name[0] == safe[0];
    assert name == safe + ("_" + timestamp + ".pptx");
  }

  /** A valid call that raises no exception writes the deck to the output
      directory under the file name derived from the topic and timestamp, and
      reports as total every slide but the findings slide. */
  lemma CreatedPath(topic: string, numSlides: int, includeTitle: bool, outputDir: string,
                    research: Option<string>, date: string, timestamp: string)
    requires Validate(topic, numSlides).None?
    ensures var r := CreatePowerpoint(topic, numSlides, includeTitle, outputDir, research, date, timestamp, None);
            && r.Success?
            && EndsWith(r.value.filepath, FileName(topic, timestamp))
            && r.value.totalSlides == numSlides + (if includeTitle then 1 else 0)
  {
    ValidateSpec(topic, numSlides);
    var name := FileName(topic, timestamp);
    FileNameShape(topic, timestamp);
    JoinPathInside(outputDir, name);
    CreatedValue(topic, numSlides, includeTitle, outputDir, research, date, timestamp);
  }

  lemma CreatedValue(topic: string, numSlides: int, includeTitle: bool, outputDir: string,
                     research: Option<string>, date: string, timestamp: string)
    requires Validate(topic, numSlides).None?
    ensures numSlides >= 1
    ensures CreatePowerpoint(topic, numSlides, includeTitle, outputDir, research, date, timestamp, None)
            == Success(Created(PlanDeck(topic, numSlides, includeTitle, research, date),
                               JoinPath(outputDir, FileName(topic, timestamp)),
                               TotalSlides(numSlides, includeTitle)))
  {
  }

  // ---------------------------------------------------------------------------
  // The dictionary handed back to the caller

  /** The keys of the returned dictionary. `filepath` is `None` when the
      dictionary holds the key with the value `None`, as every failure does;
      `total_slides` and `message` are `None` when the key is missing, which
      is why reading `message` after a validation failure raises `KeyError`. */
  datatype Response = Response(success: bool, error: Option<string>, filepath: Option<string>,
                               totalSlides: Option<nat>, message: Option<string>)

  const SuccessPrefix := "PowerPoint presentation created successfully: "
  const ErrorPrefix := "Error creating PowerPoint presentation: "

  /** Lines 39-50, 189-194 and 196-202: the three shapes of the dictionary. A
      validation failure carries `error` and a `None` file path but no
      `message`; a raised exception carries both; a success carries the path,
      the total and the message. */
  function ToResponse(r: Result<Created, CreateError>): (resp: Response)
    ensures resp.success <==> r.Success?
    ensures resp.filepath.Some? <==> r.Success?
    ensures resp.error.Some? <==> r.Failure?
    ensures resp.message.None? <==> r.Failure? && r.error.InvalidInput?
    ensures r.Success? ==> resp.filepath == Some(r.value.filepath) && resp.totalSlides == Some(r.value.totalSlides)
    ensures r.Failure? ==> resp.error == Some(r.error.error) && resp.totalSlides.None?
  {
    match r
    case Success(c) =>
      Response(true, None, Some(c.filepath), Some(c.totalSlides),
               Some(SuccessPrefix + c.filepath + " (Total slides: " + NatToString(c.totalSlides) + ")"))
    case Failure(InvalidInput(e)) => Response(false, Some(e), None, None, None)
    case Failure(WriteFailure(e)) => Response(false, Some(e), None, None, Some(ErrorPrefix + e))
  }

  /** A valid call whose file is written reports the joined path of its file
      name and a total of `num_slides`, plus one when a title slide is made;
      the findings slide never counts. */
  lemma CreatedResponse(topic: string, numSlides: int, includeTitle: bool, outputDir: string,
                        research: Option<string>, date: string, timestamp: string)
    requires Validate(topic, numSlides).None?
    ensures var resp := ToResponse(CreatePowerpoint(topic, numSlides, includeTitle, outputDir,
                                                    research, date, timestamp, None));
            && resp.success
            && resp.error.None?
            && resp.filepath == Some(JoinPath(outputDir, FileName(topic, timestamp)))
            && resp.totalSlides == Some(numSlides + (if includeTitle then 1 else 0))
  {
    CreatedValue(topic, numSlides, includeTitle, outputDir, research, date, timestamp);
  }

  /** The text of a success message before the slide total. */
  function SuccessLead(filepath: string): string
  {
    SuccessPrefix + filepath + " (Total slides: "
  }

  /** A success message names the file and the slide total, and reading the
      total back from it gives the reported number. */
  lemma SuccessMessage(c: Created)
    ensures var m := ToResponse(Success(c)).message.value;
            var n := |SuccessLead(c.filepath)|;
            && StartsWith(m, SuccessLead(c.filepath))
            && EndsWith(m, ")")
            && n < |m|
            && (forall k :: n <= k < |m| - 1 ==> IsDigit(m[k]))
            && DigitsValue(m[n..|m| - 1]) == c.totalSlides
  {
    var p := SuccessLead(c.filepath);
    var d := NatToString(c.totalSlides);
    var m := ToResponse(Success(c)).message.value;
    assert m == p + d + ")";
    assert m[..|p|] == p;
    assert m[|p|..|m| - 1] == d;
    NatToStringRoundTrip(c.totalSlides);
  }
}

=== FILE: Distribution.dfy ===
/** How `create_powerpoint` spreads the research bullets over the content
    slides (create_presentation.py lines 151-155): every slide gets a window of
    the same size, the windows follow each other from the start of the list,
    and whatever lies past the last window is not shown. */
module Distribution {
  import opened Wrappers
  import opened Seqs

  /** Bullets per slide: `max(3, len(research_bullets) // num_slides)`. */
  function Budget(n: nat, numSlides: nat): nat
    requires numSlides >= 1
  {
    Max(3, n / numSlides)
  }

  /** `start_idx` of the 1-based slide `i`. */
  function SlideStart(n: nat, numSlides: nat, i: nat): nat
    requires numSlides >= 1 && i >= 1
  {
    (i - 1) * Budget(n, numSlides)
  }

  /** `research_bullets[start_idx:end_idx]` for the 1-based slide `i`: the
      window of at most `Budget` bullets that starts at `SlideStart`, empty
      once the start reaches the end of the list. */
  function SlideBullets<T>(bullets: seq<T>, numSlides: nat, i: nat): (r: seq<T>)
    requires numSlides >= 1 && i >= 1
    ensures |r| <= Budget(|bullets|, numSlides)
    ensures forall k :: 0 <= k < |r| ==>
              SlideStart(|bullets|, numSlides, i) + k < |bullets|
              && r[k] == bullets[SlideStart(|bullets|, numSlides, i) + k]
    ensures r == [] <==> SlideStart(|bullets|, numSlides, i) >= |bullets|
    ensures SlideStart(|bullets|, numSlides, i) + Budget(|bullets|, numSlides) <= |bullets|
            ==> |r| == Budget(|bullets|, numSlides)
  {
    var b := Budget(|bullets|, numSlides);
    var start := SlideStart(|bullets|, numSlides, i);
    var end := Min(start + b, |bullets|);
    PySlice(bullets, start, end)
  }

  /** The windows of slides `1..m`, in slide order. */
  function Windows<T>(bullets: seq<T>, numSlides: nat, m: nat): seq<seq<T>>
    requires numSlides >= 1
  {
    seq(m, k requires 0 <= k < m => SlideBullets(bullets, numSlides, k + 1))
  }

  /** Read one after another, the windows of the first `m` slides are exactly
      the first `m * Budget` bullets (or all of them, if there are fewer): no
      bullet is repeated, none is reordered and none is skipped before the cut. */
  lemma {:induction false} WindowsCover<T>(bullets: seq<T>, numSlides: nat, m: nat)
    requires numSlides >= 1
    ensures Concat(Windows(bullets, numSlides, m))
            == bullets[..Min(|bullets|, m * Budget(|bullets|, numSlides))]
  {
    var b := Budget(|bullets|, numSlides);
    var n := |bullets|;
    if m == 0 {
      assert Windows(bullets, numSlides, 0) == [];
    } else {
      WindowsCover(bullets, numSlides, m - 1);
      var ws := Windows(bullets, numSlides, m);
      assert ws[..m - 1] == Windows(bullets, numSlides, m - 1);
      var start := SlideStart(n, numSlides, m);
      MulStep(m - 1, b);
      assert ws[m - 1] == PySlice(bullets, start, Min(start + b, n));
      SliceJoin(bullets, start, start + b);
    }
  }

  lemma MulStep(x: nat, b: nat)
    ensures (x + 1) * b == x * b + b
  {
  }

  /** A prefix followed by the Python slice that starts where it stops is the
      longer prefix. */
  lemma SliceJoin<T>(s: seq<T>, a: nat, c: nat)
    requires a <= c
    ensures s[..Min(|s|, a)] + PySlice(s, a, Min(c, |s|)) == s[..Min(|s|, c)]
  {
    if a < |s| {
      assert PySlice(s, a, Min(c, |s|)) == s[a..Min(c, |s|)];
      assert s[..Min(|s|, c)] == s[..a] + s[a..Min(c, |s|)];
    }
  }

  /** The number of bullets no slide shows: none while there are fewer than
      three per slide, otherwise the remainder of `n / numSlides`, which is
      less than the number of slides. */
  lemma DroppedBullets(n: nat, numSlides: nat)
    requires numSlides >= 1
    ensures n - Min(n, numSlides * Budget(n, numSlides))
            == (if n / numSlides >= 3 then n % numSlides else 0)
    ensures n - Min(n, numSlides * Budget(n, numSlides)) < numSlides
  {
    var q := n / numSlides;
    assert n == q * numSlides + n % numSlides;
    if q < 3 {
      assert n < 3 * numSlides;
      assert numSlides * Budget(n, numSlides) == 3 * numSlides;
    } else {
      assert numSlides * Budget(n, numSlides) == q * numSlides;
    }
  }

  /** All bullets of the deck, with the ones past the last window dropped. */
  lemma {:induction false} DistributionKeepsPrefix<T>(bullets: seq<T>, numSlides: nat)
    requires numSlides >= 1
    ensures var shown := Concat(Windows(bullets, numSlides, numSlides));
            && shown <= bullets
            && |bullets| - |shown| == (if |bullets| / numSlides >= 3 then |bullets| % numSlides else 0)
  {
    var n := |bullets|;
    var cut := Min(n, numSlides * Budget(n, numSlides));
    WindowsCover(bullets, numSlides, numSlides);
    DroppedBullets(n, numSlides);
    var shown := Concat(Windows(bullets, numSlides, numSlides));
    assert shown == bullets[..cut];
    assert bullets == bullets[..cut] + bullets[cut..];
    assert n - |shown| == n - cut;
  }

  /** Different slides draw from disjoint positions, and an earlier slide's
      positions all come before a later slide's. */
  lemma WindowsDisjoint<T>(bullets: seq<T>, numSlides: nat, i: nat, j: nat, k: nat, l: nat)
    requires numSlides >= 1 && 1 <= i < j
    requires k < |SlideBullets(bullets, numSlides, i)| && l < |SlideBullets(bullets, numSlides, j)|
    ensures SlideStart(|bullets|, numSlides, i) + k < SlideStart(|bullets|, numSlides, j) + l
  {
    var b := Budget(|bullets|, numSlides);
    MulStep(i - 1, b);
    MulMonotone(i, j - 1, b);
  }

  lemma MulMonotone(x: nat, y: nat, b: nat)
    requires x <= y
    ensures x * b <= y * b
  {
  }

  /** A slide with any bullets after it is full: the next window starts right
      where this one ends. */
  lemma WindowsContiguous<T>(bullets: seq<T>, numSlides: nat, i: nat)
    requires numSlides >= 1 && i >= 1
    requires SlideBullets(bullets, numSlides, i + 1) != []
    ensures |SlideBullets(bullets, numSlides, i)| == Budget(|bullets|, numSlides)
    ensures SlideStart(|bullets|, numSlides, i) + |SlideBullets(bullets, numSlides, i)|
            == SlideStart(|bullets|, numSlides, i + 1)
  {
    MulStep(i - 1, Budget(|bullets|, numSlides));
  }
}

=== FILE: Research.dfy ===
/** How `create_powerpoint` reads the research text: the "Key Research
    Findings" slide body (create_presentation.py lines 88-100) and the flat
    list of research bullets that feeds the content slides (lines 103-133). */
module Research {
  import opened Wrappers
  import opened Text
  import opened Seqs
  import opened Slides

  /** Python truthiness of `research_data`: `None` and `""` are both false. */
  predicate Provided(research: Option<string>)
  {
    research.Some? && |research.value| > 0
  }

  /** `research_data.split('\n')`. */
  function Lines(data: string): seq<string>
  {
    Split(data, '\n')
  }

  // ---------------------------------------------------------------------------
  // The findings slide

  const FindingsTitle := "Key Research Findings"
  const FindingsFallback := "Research findings incorporated throughout presentation"
  /** At most this many research lines are looked at: the first plus `[1:8]`. */
  const FindingsWindow: nat := 8

  /** A line that takes part in the findings slide: stripped, non-empty and not
      a `#` header. */
  function ResearchLine(raw: string): Option<string>
  {
    var line := Strip(raw);
    if line != "" && !StartsWith(line, "#") then Some(line) else None
  }

  function ResearchLines(data: string): seq<string>
  {
    FilterMap(Lines(data), ResearchLine)
  }

  /** `line.replace('**', '').replace('- ', '').replace('* ', '')`. */
  function CleanMarkdown(line: string): string
  {
    RemoveAll(RemoveAll(RemoveAll(line, "**"), "- "), "* ")
  }

  /** A line that opened with a bullet marker stays at level 0; any other line
      is indented under the first. */
  function FindingLevel(line: string): nat
  {
    if StartsWith(line, "-") || StartsWith(line, "*") then 0 else 1
  }

  /** The paragraph a line after the first contributes, if any: lines that
      open with `**` are section markers and are skipped. */
  function Finding(line: string): Option<Paragraph>
  {
    if line != "" && line != "**" && !StartsWith(line, "**") then
      Some(Paragraph(CleanMarkdown(line), FindingLevel(line)))
    else
      None
  }

  /** The body of the findings slide: the first research line verbatim, then
      the cleaned form of each of the next seven that is not a section marker;
      a fixed sentence when the text has no research line at all. */
  function FindingsBody(data: string): (body: seq<Paragraph>)
    ensures 1 <= |body| <= FindingsWindow
    ensures body[0].level == 0
  {
    var lines := ResearchLines(data);
    if |lines| == 0 then
      [Paragraph(FindingsFallback, 0)]
    else
      [Paragraph(lines[0], 0)] + FilterMap(PySlice(lines, 1, FindingsWindow), Finding)
  }

  /** The fixed sentence stands in when every line is blank or a `#` header. */
  lemma FindingsFallbackWhenEmpty(data: string)
    requires forall j :: 0 <= j < |Lines(data)| ==> ResearchLine(Lines(data)[j]).None?
    ensures FindingsBody(data) == [Paragraph(FindingsFallback, 0)]
  {
    var lines := Lines(data);
    OriginsSpec(lines, ResearchLine);
    var idx := Origins(lines, ResearchLine);
    assert |idx| == 0;
  }

  /** The paragraphs after the first are the findings of research lines 2 to
      8, one for each of those lines that does not open with `**`, in line
      order, with none left out: `idx` gives the line of each paragraph. Each
      one's text is the line with `**`, `- ` and `* ` replaced in turn by
      nothing, and its level is 0 exactly when the line opens with `-` or `*`. */
  lemma {:induction false} FindingsFromWindow(data: string)
    requires |ResearchLines(data)| > 0
    ensures var window := PySlice(ResearchLines(data), 1, FindingsWindow);
            var idx := Origins(window, Finding);
            var body := FindingsBody(data);
            && |body| == |idx| + 1
            && (forall k :: 0 <= k < |idx| ==>
                  && idx[k] < |window|
                  && !StartsWith(window[idx[k]], "**")
                  && body[k + 1] == Paragraph(CleanMarkdown(window[idx[k]]), FindingLevel(window[idx[k]])))
            && (forall k, l :: 0 <= k < l < |idx| ==> idx[k] < idx[l])
            && (forall j :: 0 <= j < |window| && !StartsWith(window[j], "**") ==> j in idx)
  {
    var lines := ResearchLines(data);
    var window := PySlice(lines, 1, FindingsWindow);
    var rest := FilterMap(window, Finding);
    var body := FindingsBody(data);
    assert body == [Paragraph(lines[0], 0)] + rest;
    forall j | 0 <= j < |window|
      ensures window[j] != ""
    {
      ResearchLineNotEmpty(data, window[j]);
    }
    FindingsOfWindow(window);
    assert body[1..] == rest;
  }

  /** The same over any window of non-empty lines, with `rest` the paragraphs
      after the first. */
  lemma FindingsOfWindow(window: seq<string>)
    requires forall j :: 0 <= j < |window| ==> window[j] != ""
    ensures var idx := Origins(window, Finding);
            var rest := FilterMap(window, Finding);
            && |rest| == |idx|
            && (forall k :: 0 <= k < |idx| ==>
                  && idx[k] < |window|
                  && !StartsWith(window[idx[k]], "**")
                  && rest[k] == Paragraph(CleanMarkdown(window[idx[k]]), FindingLevel(window[idx[k]])))
            && (forall k, l :: 0 <= k < l < |idx| ==> idx[k] < idx[l])
            && (forall j :: 0 <= j < |window| && !StartsWith(window[j], "**") ==> j in idx)
  {
    OriginsSpec(window, Finding);
  }

  /** Research lines are never empty. */
  lemma ResearchLineNotEmpty(data: string, line: string)
    requires line in ResearchLines(data)
    ensures line != ""
  {
    var raw :| raw in Lines(data) && ResearchLine(raw) == Some(line);
  }

  /** The findings slide opens with the first line of the text that is neither
      blank nor a `#` header, stripped but otherwise verbatim. */
  lemma FindingsLead(data: string, j: nat)
    requires j < |Lines(data)| && ResearchLine(Lines(data)[j]).Some?
    requires forall i :: 0 <= i < j ==> ResearchLine(Lines(data)[i]).None?
    ensures FindingsBody(data)[0] == Paragraph(Strip(Lines(data)[j]), 0)
  {
    var lines := Lines(data);
    OriginsSpec(lines, ResearchLine);
    var idx := Origins(lines, ResearchLine);
    assert j in idx;
    var k :| 0 <= k < |idx| && idx[k] == j;
    assert idx[0] <= idx[k];
    assert idx[0] >= j by {
      assert ResearchLine(lines[idx[0]]).Some?;
    }
  }

  // ---------------------------------------------------------------------------
  // The research bullets

  /** The third marker is the UTF-8 encoding of the bullet character U+2022
      read back as Windows-1252: a-circumflex, euro sign, cent sign, then a space. */
  const Mojibake := "\U{E2}\U{20AC}\U{A2} "
  const Markers := ["- ", "* ", Mojibake]
  /** Lines that merely announce a section of the research text. */
  const SectionLabels := ["key findings", "visual suggestions", "sources", "key insight"]

  function DropPrefix(s: string, marker: string): string
  {
    if StartsWith(s, marker) then s[|marker|..] else s
  }

  /** Tries each marker of `markers` once, in order, removing it when the text
      (as left by the earlier markers) starts with it. */
  function DropMarkers(s: string, markers: seq<string>): string
  {
    if |markers| == 0 then s
    else DropPrefix(DropMarkers(s, markers[..|markers| - 1]), markers[|markers| - 1])
  }

  /** Every prefix the marker loop can remove: at most one of each marker, in
      the fixed order. */
  function MarkerPrefixes(): set<string>
  {
    {"", "- ", "* ", Mojibake, "- * ", "- " + Mojibake, "* " + Mojibake, "- * " + Mojibake}
  }

  /** The marker loop of lines 121-124: what it leaves is a suffix of the line,
      and what it removed is one of the `MarkerPrefixes`. */
  function StripMarkers(line: string): (r: string)
    ensures |r| <= |line| && r == line[|line| - |r|..]
    ensures line[..|line| - |r|] in MarkerPrefixes()
    ensures StartsWith(line, "- ") || StartsWith(line, "* ") || StartsWith(line, Mojibake) || r == line
  {
    var a := DropPrefix(line, "- ");
    var b := DropPrefix(a, "* ");
    var c := DropPrefix(b, Mojibake);
    DropPrefixSplits(line, "- ");
    DropPrefixSplits(a, "* ");
    DropPrefixSplits(b, Mojibake);
    var p1 := Dropped(line, "- ");
    var p2 := Dropped(a, "* ");
    var p3 := Dropped(b, Mojibake);
    Regroup(p1, p2, p3, c);
    PrefixChoices(p1, p2, p3);
    ConcatSplit(p1 + p2 + p3, c);
    c
  }

  /** What `DropPrefix` cuts off. */
  function Dropped(s: string, marker: string): string
  {
    if StartsWith(s, marker) then marker else ""
  }

  lemma DropPrefixSplits(s: string, marker: string)
    ensures s == Dropped(s, marker) + DropPrefix(s, marker)
  {
    if StartsWith(s, marker) {
      assert s == s[..|marker|] + s[|marker|..];
    }
  }

  lemma Regroup<T>(p1: seq<T>, p2: seq<T>, p3: seq<T>, c: seq<T>)
    ensures p1 + (p2 + (p3 + c)) == (p1 + p2 + p3) + c
  {
  }

  lemma ConcatSplit<T>(p: seq<T>, c: seq<T>)
    ensures |p + c| - |c| == |p|
    ensures (p + c)[..|p|] == p && (p + c)[|p|..] == c
  {
  }

  lemma PrefixChoices(p1: string, p2: string, p3: string)
    requires p1 == "" || p1 == "- "
    requires p2 == "" || p2 == "* "
    requires p3 == "" || p3 == Mojibake
    ensures p1 + p2 + p3 in MarkerPrefixes()
  {
    var p := p1 + p2 + p3;
    if p1 == "" && p2 == "" {
      assert p == p3;
    } else if p1 == "" {
      assert p == "* " + p3;
      if p3 == "" { assert p == "* "; }
    } else if p2 == "" {
      assert p == "- " + p3;
      if p3 == "" { assert p == "- "; }
    } else {
      assert p == "- * " + p3;
      if p3 == "" { assert p == "- * "; }
    }
  }

  lemma StripMarkersIsLoop(line: string)
    ensures StripMarkers(line) == DropMarkers(line, Markers)
  {
    assert Markers[..1][..0] == [];
    assert DropMarkers(line, Markers[..1]) == DropPrefix(line, "- ");
    assert Markers[..2][..1] == Markers[..1];
    assert DropMarkers(line, Markers[..2]) == DropPrefix(DropPrefix(line, "- "), "* ");
    assert Markers[..3] == Markers;
    assert Markers[..3][..2] == Markers[..2];
  }

  /** The marker loop removes as much as it can: the prefix it cuts off is the
      longest of the `MarkerPrefixes` the line starts with. Together with the
      contract of `StripMarkers` this fixes its result: a line opening with
      `- ` loses it, then a `* ` after it, then a mojibake bullet after that. */
  lemma StripMarkersLongest(line: string, q: string)
    ensures var r := StripMarkers(line);
            && line == line[..|line| - |r|] + r
            && line[..|line| - |r|] in MarkerPrefixes()
            && (q in MarkerPrefixes() && StartsWith(line, q) ==> |q| <= |line| - |r|)
  {
    var r := StripMarkers(line);
    assert line == line[..|line| - |r|] + r;
    RemovedLength(line);
    if q in MarkerPrefixes() && StartsWith(line, q) {
      LongestStep(line, q);
    }
  }

  /** How much the marker loop removes, step by step. */
  lemma RemovedLength(line: string)
    ensures var a := DropPrefix(line, "- ");
            var b := DropPrefix(a, "* ");
            |line| - |StripMarkers(line)| == |Dropped(line, "- ")| + |Dropped(a, "* ")| + |Dropped(b, Mojibake)|
  {
    var a := DropPrefix(line, "- ");
    var b := DropPrefix(a, "* ");
    DropPrefixSplits(line, "- ");
    DropPrefixSplits(a, "* ");
    DropPrefixSplits(b, Mojibake);
  }

  lemma LongestStep(line: string, q: string)
    requires q in MarkerPrefixes() && StartsWith(line, q)
    ensures var a := DropPrefix(line, "- ");
            |q| <= |Dropped(line, "- ")| + |Dropped(a, "* ")| + |Dropped(DropPrefix(a, "* "), Mojibake)|
  {
    if q == "- " || q == "- * " || q == "- " + Mojibake || q == "- * " + Mojibake {
      var t := q[2..];
      assert t == "" || t == "* " || t == Mojibake || t == "* " + Mojibake;
      assert StartsWith(q, "- ");
      PrefixOfPrefix(line, q, "- ");
      StartsWithTail(line, q, 2);
      StarStep(line[2..], t);
    } else if q != "" {
      assert q == "* " || q == Mojibake || q == "* " + Mojibake;
      assert line[0] == q[0];
      StarStep(line, q);
    }
  }

  /** The last two steps of the marker loop, for the prefixes that do not
      start with `- `. */
  lemma StarStep(a: string, q: string)
    requires q == "" || q == "* " || q == Mojibake || q == "* " + Mojibake
    requires StartsWith(a, q)
    ensures |q| <= |Dropped(a, "* ")| + |Dropped(DropPrefix(a, "* "), Mojibake)|
  {
    if q == "* " || q == "* " + Mojibake {
      PrefixOfPrefix(a, q, "* ");
      StartsWithTail(a, q, 2);
      assert DropPrefix(a, "* ") == a[2..];
      if q == "* " + Mojibake {
        assert q[2..] == Mojibake;
      }
    } else if q == Mojibake {
      assert a[0] == Mojibake[0];
      assert !StartsWith(a, "* ");
    }
  }

  lemma PrefixOfPrefix(s: string, q: string, m: string)
    requires StartsWith(s, q) && StartsWith(q, m)
    ensures StartsWith(s, m)
  {
    assert s[..|m|] == q[..|m|];
  }

  lemma StartsWithTail(s: string, q: string, n: nat)
    requires StartsWith(s, q) && n <= |q|
    ensures StartsWith(s[n..], q[n..])
  {
    assert s[n..][..|q| - n] == s[..|q|][n..];
  }

  predicate StartsWithLabel(s: string)
  {
    exists heading :: heading in SectionLabels && StartsWith(Lower(s), heading)
  }

  /** A stripped line that the skip rules of lines 113-118 drop before any
      cleaning: blank, a `#` header, a URL, or a `**` section marker at either end. */
  predicate Skipped(line: string)
  {
    line == "" || StartsWith(line, "#") || StartsWith(line, "http")
    || StartsWith(line, "**") || EndsWith(line, "**")
  }

  /** The filter of lines 129-132: long enough, not a section label, not a URL,
      and no colon among the first 30 characters. */
  predicate Substantial(cleaned: string)
  {
    |cleaned| > 15 && !StartsWithLabel(cleaned) && !StartsWith(cleaned, "http")
    && ':' !in Take(cleaned, 30)
  }

  /** The cleaned form of a line, before the substance filter. */
  function Cleaned(raw: string): string
  {
    Strip(StripMarkers(Strip(raw)))
  }

  /** The bullet one raw line contributes, if any. */
  function BulletOf(raw: string): Option<string>
  {
    var line := Strip(raw);
    if line == "" || StartsWith(line, "#") || StartsWith(line, "http") then None
    else if StartsWith(line, "**") || EndsWith(line, "**") then None
    else
      var cleaned := Strip(StripMarkers(line));
      if Substantial(cleaned) then Some(cleaned) else None
  }

  /** A line yields a bullet exactly when it survives the skip rules and its
      cleaned form passes the substance filter; the bullet is that cleaned form. */
  lemma BulletOfSpec(raw: string)
    ensures BulletOf(raw).Some? <==> !Skipped(Strip(raw)) && Substantial(Cleaned(raw))
    ensures BulletOf(raw).Some? ==> BulletOf(raw).value == Cleaned(raw)
  {
  }

  lemma BulletShape(raw: string, b: string)
    requires BulletOf(raw) == Some(b)
    ensures Substantial(b) && !IsSpace(b[0]) && !IsSpace(b[|b| - 1])
  {
    BulletOfSpec(raw);
    var s := StripMarkers(Strip(raw));
    assert b == Strip(s);
  }

  /** The research bullets of lines 103-133: none without research text. */
  function ResearchBullets(research: Option<string>): (bullets: seq<string>)
    ensures !Provided(research) ==> bullets == []
  {
    if Provided(research) then FilterMap(Lines(research.value), BulletOf) else []
  }

  /** Each research bullet is stripped, longer than 15 characters, free of
      `:` in its first 30, not a URL and not a section label. */
  lemma ResearchBulletsShape(research: Option<string>)
    ensures forall b :: b in ResearchBullets(research) ==>
              Substantial(b) && !IsSpace(b[0]) && !IsSpace(b[|b| - 1])
  {
    if Provided(research) {
      var lines := Lines(research.value);
      forall b | b in ResearchBullets(research)
        ensures Substantial(b) && !IsSpace(b[0]) && !IsSpace(b[|b| - 1])
      {
        var x :| x in lines && BulletOf(x) == Some(b);
        BulletShape(x, b);
      }
    }
  }

  /** Bullets come one per accepted line, in the order of the lines: `idx`
      gives the line of each bullet, increasing; no accepted line is skipped;
      and no bullet comes from a blank, `#`, `http` or `**` line. */
  lemma BulletsFollowLines(data: string)
    requires |data| > 0
    ensures var lines := Lines(data);
            var bullets := ResearchBullets(Some(data));
            var idx := Origins(lines, BulletOf);
            && |idx| == |bullets|
            && (forall k :: 0 <= k < |idx| ==>
                  && idx[k] < |lines|
                  && !Skipped(Strip(lines[idx[k]]))
                  && bullets[k] == Cleaned(lines[idx[k]]))
            && (forall k, l :: 0 <= k < l < |idx| ==> idx[k] < idx[l])
            && (forall j :: 0 <= j < |lines| && !Skipped(Strip(lines[j])) && Substantial(Cleaned(lines[j]))
                  ==> j in idx)
  {
    var lines := Lines(data);
    var bullets := ResearchBullets(Some(data));
    var idx := Origins(lines, BulletOf);
    OriginsSpec(lines, BulletOf);
    assert bullets == FilterMap(lines, BulletOf);
    forall k | 0 <= k < |idx|
      ensures !Skipped(Strip(lines[idx[k]])) && bullets[k] == Cleaned(lines[idx[k]])
    {
      BulletOfSpec(lines[idx[k]]);
    }
    forall j | 0 <= j < |lines| && !Skipped(Strip(lines[j])) && Substantial(Cleaned(lines[j]))
      ensures j in idx
    {
      BulletOfSpec(lines[j]);
    }
  }

  /** The loop of lines 107-133 as written. */
  method ExtractResearchBullets(research: Option<string>) returns (bullets: seq<string>)
    ensures bullets == ResearchBullets(research)
  {
    bullets := [];
    if !Provided(research) {
      return;
    }
    bullets := BulletsOfLines(Lines(research.value));
    ResearchBulletsOfLines(research);
  }

  /** The `for line in lines` loop itself. */
  method BulletsOfLines(lines: seq<string>) returns (bullets: seq<string>)
    ensures bullets == FilterMap(lines, BulletOf)
  {
    bullets := [];
    var i := 0;
    while i < |lines|
      invariant 0 <= i <= |lines|
      invariant bullets == FilterMap(lines[..i], BulletOf)
    {
      var raw := lines[i];
      var kept := CleanLine(raw);
      BulletStep(lines, i, kept);
      i := i + 1;
      if kept.Some? {
        bullets := bullets + [kept.value];
      }
    }
    assert lines[..|lines|] == lines;
  }

  /** One more line extends the bullets by that line's bullet, if any. */
  lemma BulletStep(lines: seq<string>, i: nat, kept: Option<string>)
    requires i < |lines| && kept == BulletOf(lines[i])
    ensures FilterMap(lines[..i + 1], BulletOf)
            == FilterMap(lines[..i], BulletOf) + (if kept.Some? then [kept.value] else [])
  {
    FilterMapSnoc(lines[..i], lines[i], BulletOf);
    assert lines[..i + 1] == lines[..i] + [lines[i]];
  }

  lemma ResearchBulletsOfLines(research: Option<string>)
    requires Provided(research)
    ensures ResearchBullets(research) == FilterMap(Lines(research.value), BulletOf)
  {
  }

  /** One pass of that loop's body, with `None` where the source continues
      without appending: the skip rules, the marker loop over the three
      markers, the trim and the substance filter. */
  method CleanLine(raw: string) returns (kept: Option<string>)
    ensures kept == BulletOf(raw)
  {
    var line := Strip(raw);
    if line == "" || StartsWith(line, "#") || StartsWith(line, "http") {
      return None;
    }
    if StartsWith(line, "**") || EndsWith(line, "**") {
      return None;
    }
    var cleaned := line;
    for m := 0 to |Markers|
      invariant cleaned == DropMarkers(line, Markers[..m])
    {
      assert Markers[..m + 1][..m] == Markers[..m];
      if StartsWith(cleaned, Markers[m]) {
        cleaned := cleaned[|Markers[m]|..];
      }
    }
    assert Markers[..|Markers|] == Markers;
    StripMarkersIsLoop(line);
    cleaned := Strip(cleaned);
    if |cleaned| > 15 && !StartsWithLabel(cleaned) && !StartsWith(cleaned, "http")
       && ':' !in Take(cleaned, 30) {
      return Some(cleaned);
    }
    return None;
  }
}

=== FILE: Seqs.dfy ===
/** Sequence shapes the planner builds from its loops: a filtering map (a list
    comprehension with an `if`, or a loop that appends selectively), Python's
    forgiving slice, and concatenation of a list of lists. */
module Seqs {
  import opened Wrappers

  /** `[y for x in xs if (y := f(x)) is not None]`: keeps the images of the
      elements `f` accepts, in the order of `xs`. */
  function FilterMap<A, B>(xs: seq<A>, f: A -> Option<B>): (ys: seq<B>)
    ensures |ys| <= |xs|
    ensures forall y :: y in ys ==> exists x :: x in xs && f(x) == Some(y)
  {
    if |xs| == 0 then []
    else
      var rest := FilterMap(xs[1..], f);
      assert forall x :: x in xs[1..] ==> x in xs;
      match f(xs[0])
      case Some(y) => [y] + rest
      case None => rest
  }

  /** Appending one element extends the result by that element's image, if any:
      the loop form of `FilterMap`. */
  lemma {:induction false} FilterMapSnoc<A, B>(xs: seq<A>, x: A, f: A -> Option<B>)
    ensures FilterMap(xs + [x], f)
            == FilterMap(xs, f) + (match f(x) case Some(y) => [y] case None => [])
  {
    if |xs| == 0 {
      assert [x][1..] == [];
    } else {
      FilterMapSnoc(xs[1..], x, f);
      assert (xs + [x])[1..] == xs[1..] + [x];
    }
  }

  /** `idx` lists, in increasing order, positions of `xs` that `f` accepts,
      each paired with the element of `ys` at the same rank. */
  ghost predicate IndexesImages<A, B>(xs: seq<A>, f: A -> Option<B>, ys: seq<B>, idx: seq<nat>)
  {
    && |idx| == |ys|
    && (forall k :: 0 <= k < |idx| ==> idx[k] < |xs| && f(xs[idx[k]]) == Some(ys[k]))
    && (forall k, l :: 0 <= k < l < |idx| ==> idx[k] < idx[l])
  }

  /** The position in `xs` that each element of `FilterMap(xs, f)` comes from. */
  function Origins<A, B>(xs: seq<A>, f: A -> Option<B>): seq<nat>
  {
    if |xs| == 0 then []
    else
      var shifted := Shift(Origins(xs[1..], f));
      if f(xs[0]).Some? then [0] + shifted else shifted
  }

  function Shift(t: seq<nat>): (r: seq<nat>)
    ensures |r| == |t| && forall k :: 0 <= k < |t| ==> r[k] == t[k] + 1
  {
    seq(|t|, k requires 0 <= k < |t| => t[k] + 1)
  }

  /** The origins increase, so `FilterMap` keeps the order of `xs`; each one
      is accepted by `f` with the image found at its rank; and every accepted
      position is among them, so nothing accepted is left out. */
  lemma {:induction false} OriginsSpec<A, B>(xs: seq<A>, f: A -> Option<B>)
    ensures IndexesImages(xs, f, FilterMap(xs, f), Origins(xs, f))
    ensures forall j :: 0 <= j < |xs| && f(xs[j]).Some? ==> j in Origins(xs, f)
  {
    if |xs| > 0 {
      OriginsSpec(xs[1..], f);
      var tail := Origins(xs[1..], f);
      var ys := FilterMap(xs[1..], f);
      ShiftImages(xs, f, ys, tail);
      ShiftComplete(xs, f, tail);
      match f(xs[0])
      case Some(y) =>
        ConsImages(xs, f, y, ys, Shift(tail));
      case None =>
    }
  }

  lemma ShiftImages<A, B>(xs: seq<A>, f: A -> Option<B>, ys: seq<B>, tail: seq<nat>)
    requires |xs| > 0 && IndexesImages(xs[1..], f, ys, tail)
    ensures IndexesImages(xs, f, ys, Shift(tail))
    ensures forall k :: 0 <= k < |tail| ==> Shift(tail)[k] >= 1
  {
    forall k | 0 <= k < |tail|
      ensures Shift(tail)[k] < |xs| && f(xs[Shift(tail)[k]]) == Some(ys[k])
    {
      assert xs[1..][tail[k]] == xs[tail[k] + 1];
    }
  }

  lemma ShiftComplete<A, B>(xs: seq<A>, f: A -> Option<B>, tail: seq<nat>)
    requires |xs| > 0
    requires forall j :: 0 <= j < |xs| - 1 && f(xs[1..][j]).Some? ==> j in tail
    ensures forall j :: 1 <= j < |xs| && f(xs[j]).Some? ==> j in Shift(tail)
  {
    forall j | 1 <= j < |xs| && f(xs[j]).Some?
      ensures j in Shift(tail)
    {
      assert xs[1..][j - 1] == xs[j];
      var k :| 0 <= k < |tail| && tail[k] == j - 1;
      assert Shift(tail)[k] == j;
    }
  }

  lemma ConsImages<A, B>(xs: seq<A>, f: A -> Option<B>, y: B, ys: seq<B>, idx: seq<nat>)
    requires |xs| > 0 && f(xs[0]) == Some(y)
    requires IndexesImages(xs, f, ys, idx)
    requires forall k :: 0 <= k < |idx| ==> idx[k] >= 1
    ensures IndexesImages(xs, f, [y] + ys, [0] + idx)
  {
  }

  /** Python's `s[a:b]` for non-negative bounds: both bounds are clamped to
      `|s|`, and a start at or past the end gives the empty slice. */
  function PySlice<T>(s: seq<T>, a: nat, b: nat): (r: seq<T>)
    ensures |r| == Max(0, Min(b, |s|) - Min(a, |s|))
    ensures forall k :: 0 <= k < |r| ==> a + k < |s| && r[k] == s[a + k]
  {
    var lo := Min(a, |s|);
    var hi := Min(b, |s|);
    if lo <= hi then s[lo..hi] else []
  }

  /** The lists of `ss` joined end to end. */
  function Concat<T>(ss: seq<seq<T>>): seq<T>
  {
    if |ss| == 0 then [] else Concat(ss[..|ss| - 1]) + ss[|ss| - 1]
  }
}

=== FILE: Slides.dfy ===
/** What the planner hands to the document writer: an ordered list of slide
    specifications, each a title and a body of indented paragraphs. */
module Slides {

  /** One paragraph of a text frame; level 0 is a top-level bullet, level 1 is
      indented beneath it. */
  datatype Paragraph = Paragraph(text: string, level: nat)

  /** Layout 0 of the default template (title and subtitle) or layout 1
      (title and a bulleted body). */
  datatype Layout = TitleLayout | BulletLayout

  /** A slide: its layout, its title text, and its body paragraphs in order
      (for the title layout, the body holds the subtitle). */
  datatype SlideSpec = SlideSpec(layout: Layout, title: string, body: seq<Paragraph>)
}

=== FILE: Text.dfy ===
/** The string primitives the planner takes from Python: whitespace and
    alphanumeric tests, `strip`, `split('\n')`, `startswith`, `endswith`,
    `lower`, `replace(p, '')` and integer formatting. Character classes are
    restricted to the ASCII range. */
module Text {
  import opened Wrappers

  /** `str.isspace` on ASCII: tab, line feed, vertical tab, form feed,
      carriage return, the separators 0x1C-0x1F and the space. */
  predicate IsSpace(c: char)
  {
    c == ' ' || ('\U{9}' <= c <= '\U{D}') || ('\U{1C}' <= c <= '\U{1F}')
  }

  /** `str.isalnum` on ASCII. */
  predicate IsAlnum(c: char)
  {
    ('a' <= c <= 'z') || ('A' <= c <= 'Z') || ('0' <= c <= '9')
  }

  /** `str.lower` on ASCII: upper-case letters map to lower case, the rest is kept. */
  function LowerChar(c: char): char
  {
    if 'A' <= c <= 'Z' then (c as int + 32) as char else c
  }

  function Lower(s: string): string
  {
    seq(|s|, k requires 0 <= k < |s| => LowerChar(s[k]))
  }

  predicate AllSpace(s: string)
  {
    forall k :: 0 <= k < |s| ==> IsSpace(s[k])
  }

  predicate StartsWith(s: string, p: string)
  {
    |p| <= |s| && s[..|p|] == p
  }

  predicate EndsWith(s: string, p: string)
  {
    |p| <= |s| && s[|s| - |p|..] == p
  }

  /** Python's `s[:n]` for a non-negative `n`. */
  function Take<T>(s: seq<T>, n: nat): (r: seq<T>)
    ensures |r| == Min(|s|, n)
    ensures forall k :: 0 <= k < |r| ==> r[k] == s[k]
  {
    if n <= |s| then s[..n] else s
  }

  /** `p` occurs in `s` starting at position `k`. */
  predicate OccursAt(s: string, p: string, k: nat)
  {
    k + |p| <= |s| && s[k..k + |p|] == p
  }

  ghost predicate Contains(s: string, p: string)
  {
    exists k: nat :: OccursAt(s, p, k)
  }

  // ---------------------------------------------------------------------------
  // strip

  /** The end of the whitespace run that starts at `i`. */
  function SpaceRunFrom(s: string, i: nat): (j: nat)
    requires i <= |s|
    ensures i <= j <= |s|
    ensures forall k :: i <= k < j ==> IsSpace(s[k])
    ensures j < |s| ==> !IsSpace(s[j])
    decreases |s| - i
  {
    if i < |s| && IsSpace(s[i]) then SpaceRunFrom(s, i + 1) else i
  }

  /** The start of the whitespace run that ends at `j`, not going below `lo`. */
  function SpaceRunBack(s: string, lo: nat, j: nat): (i: nat)
    requires lo <= j <= |s|
    ensures lo <= i <= j
    ensures forall k :: i <= k < j ==> IsSpace(s[k])
    ensures i > lo ==> !IsSpace(s[i - 1])
    decreases j
  {
    if j > lo && IsSpace(s[j - 1]) then SpaceRunBack(s, lo, j - 1) else j
  }

  /** Where the text kept by `strip` starts and stops. */
  function StripStart(s: string): nat
  {
    SpaceRunFrom(s, 0)
  }

  function StripStop(s: string): (j: nat)
    ensures StripStart(s) <= j <= |s|
  {
    SpaceRunBack(s, StripStart(s), |s|)
  }

  /** `r` is what remains of `s` once the whitespace run `s[..i]` and the
      whitespace run after `r` are cut off. */
  predicate PaddedBy(s: string, r: string, i: nat)
  {
    i + |r| <= |s| && r == s[i..i + |r|] && AllSpace(s[..i]) && AllSpace(s[i + |r|..])
  }

  /** `str.strip()`: the text between the leading and the trailing whitespace runs. */
  function Strip(s: string): (r: string)
    ensures |r| <= |s|
    ensures r == [] || (!IsSpace(r[0]) && !IsSpace(r[|r| - 1]))
  {
    s[StripStart(s)..StripStop(s)]
  }

  /** What `strip` cuts off is whitespace on both sides, and it leaves nothing
      exactly when the whole text is whitespace. */
  lemma StripPadding(s: string)
    ensures PaddedBy(s, Strip(s), StripStart(s))
    ensures Strip(s) == [] <==> AllSpace(s)
  {
    var i := StripStart(s);
    var j := StripStop(s);
    assert |Strip(s)| == j - i;
    assert AllSpace(s[..i]) by {
      forall k | 0 <= k < i ensures IsSpace(s[..i][k]) {
        assert s[..i][k] == s[k];
      }
    }
    assert AllSpace(s[j..]) by {
      forall k | 0 <= k < |s| - j ensures IsSpace(s[j..][k]) {
        assert s[j..][k] == s[j + k];
      }
    }
    if i == j {
      assert s[..i] == s;
    } else {
      assert !IsSpace(s[i]);
    }
  }

  // ---------------------------------------------------------------------------
  // split and join on one separator character

  /** `sep.join(parts)`. */
  function Join(parts: seq<string>, sep: char): string
  {
    if |parts| == 0 then ""
    else if |parts| == 1 then parts[0]
    else parts[0] + [sep] + Join(parts[1..], sep)
  }

  /** `s.split(sep)`: the pieces between separators, an empty piece at each end
      where `s` starts or ends with `sep`, and `[""]` for the empty string. */
  function Split(s: string, sep: char): (parts: seq<string>)
    ensures |parts| >= 1
  {
    if |s| == 0 then [""]
    else
      var rest := Split(s[1..], sep);
      if s[0] == sep then
        assert s == [sep] + s[1..];
        [""] + rest
      else
        [[s[0]] + rest[0]] + rest[1..]
  }

  /** The pieces hold no separator, and joining them back gives the text. */
  lemma {:induction false} SplitSpec(s: string, sep: char)
    ensures forall k :: 0 <= k < |Split(s, sep)| ==> sep !in Split(s, sep)[k]
    ensures Join(Split(s, sep), sep) == s
  {
    if |s| > 0 {
      SplitSpec(s[1..], sep);
      var rest := Split(s[1..], sep);
      if s[0] == sep {
        assert s == [sep] + s[1..];
      } else {
        var parts := [[s[0]] + rest[0]] + rest[1..];
        assert s == [s[0]] + s[1..];
        assert parts[1..] == rest[1..];
      }
    }
  }

  /** Splitting undoes joining when no piece holds the separator. */
  lemma {:induction false} SplitJoin(parts: seq<string>, sep: char)
    requires |parts| >= 1
    requires forall k :: 0 <= k < |parts| ==> sep !in parts[k]
    ensures Split(Join(parts, sep), sep) == parts
  {
    if |parts| == 1 {
      SplitNoSeparator(parts[0], sep);
    } else {
      SplitJoin(parts[1..], sep);
      SplitPrefix(parts[0], Join(parts[1..], sep), sep);
      assert Join(parts, sep) == parts[0] + ([sep] + Join(parts[1..], sep));
      assert [parts[0]] + parts[1..] == parts;
    }
  }

  lemma {:induction false} SplitNoSeparator(s: string, sep: char)
    requires sep !in s
    ensures Split(s, sep) == [s]
  {
    if |s| > 0 {
      SplitNoSeparator(s[1..], sep);
      assert s == [s[0]] + s[1..];
    }
  }

  lemma {:induction false} SplitPrefix(a: string, b: string, sep: char)
    requires sep !in a
    ensures Split(a + [sep] + b, sep) == [a] + Split(b, sep)
  {
    if |a| == 0 {
      assert a + [sep] + b == [sep] + b;
      assert (a + [sep] + b)[1..] == b;
    } else {
      SplitPrefix(a[1..], b, sep);
      assert (a + [sep] + b)[1..] == a[1..] + [sep] + b;
      assert [a[0]] + a[1..] == a;
    }
  }

  // ---------------------------------------------------------------------------
  // replace(p, '')

  /** `s.replace(p, '')`: a single left-to-right pass that deletes each
      non-overlapping occurrence of `p`; text that becomes `p` only after a
      deletion is kept. */
  function RemoveAll(s: string, p: string): (r: string)
    requires |p| > 0
    ensures |r| <= |s|
    decreases |s|
  {
    if |s| == 0 then ""
    else if StartsWith(s, p) then RemoveAll(s[|p|..], p)
    else [s[0]] + RemoveAll(s[1..], p)
  }

  /** `a` is what is left of `b` once some of its characters are deleted:
      the characters of `a` appear in `b` in the same order. */
  predicate Subsequence(a: string, b: string)
    decreases |b|
  {
    |a| == 0
    || (|b| > 0 && ((a[0] == b[0] && Subsequence(a[1..], b[1..])) || Subsequence(a, b[1..])))
  }

  /** Deleting the first `n` characters as well keeps a subsequence one. */
  lemma {:induction false} SubsequenceSkip(a: string, b: string, n: nat)
    requires n <= |b| && Subsequence(a, b[n..])
    ensures Subsequence(a, b)
    decreases n
  {
    if n > 0 {
      assert b[n - 1..][1..] == b[n..];
      SubsequenceSkip(a, b, n - 1);
    }
  }

  /** The pass only deletes: what it keeps is a subsequence of the text, the
      characters that survive staying in their order, and so a sub-multiset
      of its characters. */
  lemma {:induction false} RemoveAllOnlyDeletes(s: string, p: string)
    requires |p| > 0
    ensures Subsequence(RemoveAll(s, p), s)
    ensures multiset(RemoveAll(s, p)) <= multiset(s)
    decreases |s|
  {
    if |s| > 0 {
      if StartsWith(s, p) {
        RemoveAllOnlyDeletes(s[|p|..], p);
        SubsequenceSkip(RemoveAll(s, p), s, |p|);
        assert s == s[..|p|] + s[|p|..];
      } else {
        RemoveAllOnlyDeletes(s[1..], p);
        var r := RemoveAll(s, p);
        assert r == [s[0]] + RemoveAll(s[1..], p);
        assert r[1..] == RemoveAll(s[1..], p);
        assert s == [s[0]] + s[1..];
      }
    }
  }

  /** A text in which `p` does not occur comes back unchanged. */
  lemma {:induction false} RemoveAllAbsent(s: string, p: string)
    requires |p| > 0 && !Contains(s, p)
    ensures RemoveAll(s, p) == s
    decreases |s|
  {
    if |s| > 0 {
      assert !OccursAt(s, p, 0);
      if Contains(s[1..], p) {
        TailContains(s, p);
      }
      RemoveAllAbsent(s[1..], p);
      assert s == [s[0]] + s[1..];
    }
  }

  lemma TailContains(s: string, p: string)
    requires |s| > 0 && Contains(s[1..], p)
    ensures Contains(s, p)
  {
    var k: nat :| OccursAt(s[1..], p, k);
    assert s[k + 1..k + 1 + |p|] == s[1..][k..k + |p|];
    assert OccursAt(s, p, k + 1);
  }

  /** Deleting a doubled character such as `**` leaves no doubled pair behind:
      every kept copy of the character is followed by a different one. */
  lemma {:induction false} RemoveDoubledLeavesNone(s: string, c: char)
    ensures !Contains(RemoveAll(s, [c, c]), [c, c])
    decreases |s|
  {
    var p := [c, c];
    if |s| > 0 {
      if StartsWith(s, p) {
        RemoveDoubledLeavesNone(s[2..], c);
      } else {
        RemoveDoubledLeavesNone(s[1..], c);
        KeptHeadNotDoubled(s, c);
      }
    }
  }

  /** When `s` does not start with the pair `cc`, the pass keeps `s[0]` and
      the result starts with no pair either, given that the rest has none. */
  lemma KeptHeadNotDoubled(s: string, c: char)
    requires |s| > 0 && !StartsWith(s, [c, c])
    requires !Contains(RemoveAll(s[1..], [c, c]), [c, c])
    ensures !Contains(RemoveAll(s, [c, c]), [c, c])
  {
    var p := [c, c];
    var rest := RemoveAll(s[1..], p);
    assert RemoveAll(s, p) == [s[0]] + rest;
    NoPairAtHead(s, c);
    ConsNoOccurrence(s[0], rest, p);
  }

  lemma NoPairAtHead(s: string, c: char)
    requires |s| > 0 && !StartsWith(s, [c, c])
    ensures !OccursAt([s[0]] + RemoveAll(s[1..], [c, c]), [c, c], 0)
  {
    var p := [c, c];
    var x := [s[0]] + RemoveAll(s[1..], p);
    if s[0] != c {
      assert x[0] != p[0];
    } else if |s| == 1 {
      assert s[1..] == [];
      assert |x| == 1;
    } else {
      assert s[1] != c by {
        assert s[..2] == [s[0], s[1]];
      }
      assert !StartsWith(s[1..], p) by {
        assert |s| >= 3 ==> s[1..][..2][0] == s[1];
      }
      RemoveAllHead(s[1..], p);
      assert x[1] != p[1];
    }
  }

  lemma ConsNoOccurrence(x: char, rest: string, p: string)
    requires !Contains(rest, p) && !OccursAt([x] + rest, p, 0)
    ensures !Contains([x] + rest, p)
  {
    if Contains([x] + rest, p) {
      var k: nat :| OccursAt([x] + rest, p, k);
      assert k > 0;
      assert ([x] + rest)[k..k + |p|] == rest[k - 1..k - 1 + |p|];
      assert OccursAt(rest, p, k - 1);
    }
  }

  /** When `s` does not start with `p`, its first character survives the deletion. */
  lemma RemoveAllHead(s: string, p: string)
    requires |p| > 0 && |s| > 0 && !StartsWith(s, p)
    ensures |RemoveAll(s, p)| > 0 && RemoveAll(s, p)[0] == s[0]
  {
  }

  // ---------------------------------------------------------------------------
  // integer formatting

  function DigitChar(d: nat): char
    requires d < 10
  {
    ('0' as int + d) as char
  }

  predicate IsDigit(c: char)
  {
    '0' <= c <= '9'
  }

  /** The value of a string of decimal digits. */
  function DigitsValue(s: string): nat
    requires forall k :: 0 <= k < |s| ==> IsDigit(s[k])
  {
    if |s| == 0 then 0
    else
      var d := s[|s| - 1];
      assert IsDigit(d);
      DigitsValue(s[..|s| - 1]) * 10 + (d as int - '0' as int)
  }

  /** `str(n)` for a natural number: its decimal digits, most significant first. */
  function NatToString(n: nat): (r: string)
    ensures |r| >= 1
    ensures forall k :: 0 <= k < |r| ==> IsDigit(r[k])
    ensures |r| > 1 ==> r[0] != '0'
  {
    if n < 10 then [DigitChar(n)] else NatToString(n / 10) + [DigitChar(n % 10)]
  }

  /** Reading the digits back gives the number that was formatted. */
  lemma {:induction false} NatToStringRoundTrip(n: nat)
    ensures DigitsValue(NatToString(n)) == n
  {
    if n >= 10 {
      var r := NatToString(n);
      NatToStringRoundTrip(n / 10);
      assert r[..|r| - 1] == NatToString(n / 10);
    }
  }

  lemma NatToStringInjective(a: nat, b: nat)
    requires a != b
    ensures NatToString(a) != NatToString(b)
  {
    NatToStringRoundTrip(a);
    NatToStringRoundTrip(b);
  }
}

=== FILE: Tool.dfy ===
/** The agent tool `create_presentation` (ppt_agent/utils/tools.py lines
    18-77): it calls `create_powerpoint` and hands back `result["message"]`. */
module Tool {
  import opened Wrappers
  import opened Text
  import opened Deck

  /** `result["message"]` as written: `None` stands for the `KeyError` that
      Python raises when the dictionary has no `message` key. */
  function ReplyAsWritten(resp: Response): (reply: Option<string>)
    ensures reply.Some? <==> resp.message.Some?
  {
    resp.message
  }

  /** Every rejected input makes the tool raise instead of returning the
      validation error: the dictionary built for it has no `message`. */
  lemma RejectedInputRaises(topic: string, numSlides: int, includeTitle: bool, outputDir: string,
                            research: Option<string>, date: string, timestamp: string,
                            writeError: Option<string>)
    requires Validate(topic, numSlides).Some?
    ensures ReplyAsWritten(ToResponse(CreatePowerpoint(topic, numSlides, includeTitle, outputDir,
                                                       research, date, timestamp, writeError))).None?
  {
  }

  /** A concrete case: asking for no slides at all. */
  lemma ZeroSlidesRaises()
    ensures ReplyAsWritten(ToResponse(CreatePowerpoint("AI Trends", 0, true, "./output",
                                                       None, "January 18, 2026", "20260118_143022", None))).None?
  {
    RejectedInputRaises("AI Trends", 0, true, "./output", None, "January 18, 2026", "20260118_143022", None);
  }

  /** What the docstring of lines 54-56 promises: the success message, or an
      error message when generation failed, including the validation
      failures, whose message carries the validation error. */
  function Reply(resp: Response): string
  {
    match resp.message
    case Some(m) => m
    case None => ErrorPrefix + (match resp.error case Some(e) => e case None => "")
  }

  /** The corrected tool always returns text: the success message after a
      written deck, and an error message naming the validation error or the
      exception text otherwise. */
  lemma ReplyAlwaysAnswers(r: Result<Created, CreateError>)
    ensures r.Success? ==> Reply(ToResponse(r)) == ToResponse(r).message.value
                           && StartsWith(Reply(ToResponse(r)), SuccessPrefix)
    ensures r.Failure? ==> Reply(ToResponse(r)) == ErrorPrefix + r.error.error
  {
    if r.Success? {
      var c := r.value;
      assert ToResponse(r).message.value == SuccessPrefix + (c.filepath + " (Total slides: " + NatToString(c.totalSlides) + ")");
    }
  }
}

=== FILE: Wrappers.dfy ===
/** Failure-carrying datatypes shared by the deck planner. */
module Wrappers {

  /** Python's `None` or a present value. */
  datatype Option<+T> = None | Some(value: T)

  /** The result of a call that either succeeds with a value or fails with an error. */
  datatype Result<+R, +E> = Success(value: R) | Failure(error: E)

  function Min(a: int, b: int): int
  {
    if a <= b then a else b
  }

  function Max(a: int, b: int): int
  {
    if a >= b then a else b
  }
}
